=== FILE: README.md ===
# dollar.js wrapper core, modelled in Dafny

dollar.js exposes `$`, a function that turns a CSS selector into a
*wrapper*: a `Proxy` over an array of DOM elements. The wrapper lets a
collection be used as if it were one element. A property read on it
(`$('p').length`, `$('p')[0]`, `$('p').map`, `$('p').onclick`, `$('p').remove`,
`$('p').style`, `$('p').id`) is decided by a fixed list of rules. A property
write (`$('p').title = 'x'`) is sent to every element. `$.use(plugin)` merges
extension properties and methods into one registry that every wrapper
consults.

The model has six modules:

- `Js` holds JavaScript values and property keys, truthiness and `typeof`,
  and the names `Array.prototype` answers to (ECMAScript 2023). The browser
  appears as a `Host` of total functions: `isNaN`, property reads on elements,
  calls into user and native functions, `Array.prototype` operations, and
  `querySelectorAll`/`matches`.
- `Decimal` defines canonical array-index numerals and proves that printing
  and parsing them are inverse.
- `SharedState` is the extension registry (`sharedState`) and `$.use`.
- `Dispatch` is the `get` trap's classifier. It is stated twice:
  - as a rule table, where each rule says when it applies and `Rank` gives the
    priority;
  - as the if-chain the source runs.

  It is proved that the two agree and that the selected rule is unique.
- `Wrapper` covers what each outcome returns and what calling the returned
  function does. This includes the nested-plugin accessor, the
  `style`/`classList`/`dataset` accessor and the empty-collection accessor.
- `Broadcast` covers the `set` traps of the wrapper and of the
  `style`/`classList`/`dataset` accessor.
- `Entry` covers `$(selector)` and `$(context, selector)`.

The registry is a single shared object in the source. Every wrapper reads the
registry at the moment a property is looked up. The model therefore passes
the current registry to each lookup (`Get`) rather than storing a copy.

Facts about the code that shape the model:

- The two-argument form accepts only an `Element` as its context. Anything
  else, including an array of elements or the document, throws.
- The `on…` binder takes one handler and attaches it directly to every
  element.
- A per-element call returns the same collection when the first result is
  `undefined`, and otherwise the raw list of results.
- On an empty collection every name that reaches the fallback gets the same
  no-op accessor, whatever the name.
- The `style`/`classList`/`dataset` accessor guards its empty case with
  `typeof prop === 'function'`, which no property key satisfies, so it
  returns `undefined` there, and so does the model.

## Model

| member | source | states |
|---|---|---|
| Decimal.ParseIndexIsInverse | dollar.js:12 | a name reads an array slot exactly when it is the canonical decimal numeral of that slot's index (parse and print are inverse both ways) |
| Js.ArrayNamesBeginPlainly | dollar.js:12-15 | every name `Array.prototype` answers to begins with `_` or a lower-case letter other than `o`, so the `isNaN` test before it and the `on` test after it never claim one |
| SharedState.Assign | dollar.js:197 | `Object.assign` keeps every existing name, gives each incoming name its incoming value and leaves other names as they were |
| SharedState.Use | dollar.js:191-203 | `use` throws its TypeError exactly when the plugin is falsy or not of type object; otherwise it merges `properties` into the registered properties and `methods` into the registered methods, each only when present |
| SharedState.UseNeverRemoves | dollar.js:196-201 | a successful `use` removes no registered name and changes no name the plugin does not mention |
| SharedState.UseLastWriteWins | dollar.js:196-201 | after two registrations, a name resolves to the later plugin's entry, else the earlier one's, else what it was before |
| Dispatch.Classify | dollar.js:4-96 | the `get` trap's decision is one of the twelve rules and that rule applies; every rule past the symbol check is only reached by a string key |
| Dispatch.SelectsByKey | dollar.js:4-12 | for `length`, symbols and numeric names, the decision is the first applicable rule of the table |
| Dispatch.SelectsByName | dollar.js:15-39 | for array operation names and `on…` names, the decision is the first applicable rule of the table |
| Dispatch.SelectsByRegistry | dollar.js:42-64 | for other names with a truthy registry entry, the decision is the first applicable rule of the table |
| Dispatch.SelectsByCollection | dollar.js:66-96 | for unregistered ordinary names, the collection decides: no-op accessor, per-element call, `style`/`classList`/`dataset` accessor, value list, in that order |
| Dispatch.ClassifySelects | dollar.js:4-96 | for every key, registry and collection the decision is the applicable rule of highest priority |
| Dispatch.SelectionIsUnique | dollar.js:4-96 | an outcome is the highest-priority applicable rule if and only if it is the decision, so exactly one rule fires on every access |
| Dispatch.ReservedNamesNeverReachRegistry | dollar.js:4-42 | `length`, numeric names, array operation names and `on…` names are decided before the registry, so a plugin or method under such a name is never used |
| Dispatch.RegisteredPropertyShadowsElements | dollar.js:42-56 | a truthy registered property on any other name wins whatever the elements hold, shadowing their own property |
| Dispatch.RegisteredMethodShadowsElements | dollar.js:58-64 | a truthy registered method wins over the elements unless a truthy registered property of the same name exists |
| Dispatch.CollectionMattersOnlyForFallback | dollar.js:66-96 | any decision ranked before the empty-collection check is the same for every collection |
| Dispatch.RegistryIgnoredForReservedKeys | dollar.js:4-39 | on keys decided by the built-in rules, any two registries give the same decision |
| Wrapper.Rewrap | dollar.js:158-160 | rewrapping keeps an array's items; a primitive cannot be a proxy target and makes the host throw |
| Wrapper.IndexReadsPosition | dollar.js:12 | the numeral of a position reads that item, or `undefined` past the end |
| Wrapper.NonNumeralReadsUndefined | dollar.js:12 | a numeric-looking name that is no index numeral (`"01"`, `"1.5"`) reads `undefined` |
| Wrapper.PropertyResult | dollar.js:42-56 | a function plugin is applied to the raw items and its result rewrapped; an object plugin's `value` function is applied the same way with the plugin as receiver, and a truthy `value` that is not a function throws; an object with falsy `value` and truthy `properties` gives a nested accessor over the same items; any other plugin comes back as it is |
| Wrapper.Get | dollar.js:1-97 | `length` gives the count; `Symbol.iterator` gives the bound iterator; another symbol throws; returned closures and accessors hold the same collection; a value list holds each element's value; the no-op accessor appears exactly when the empty-collection rule is selected; a binder's event is the key without `on` |
| Wrapper.GetNamespace | dollar.js:107-120 | a truthy function entry of the plugin's `properties` is applied to the raw items and its result rewrapped; another truthy entry comes back as it is; a falsy entry reads `undefined` |
| Wrapper.GetIntermediate | dollar.js:122-142 | with no truthy first element a sub-property of `style`/`classList`/`dataset` reads `undefined`; a function sub-value on the first element gives a sub-method over the same elements; any other sub-value gives every element's sub-value, in order |
| Wrapper.Call | dollar.js:17-88 | an array operation's result is rewrapped when it is an array; a binder attaches the handler to every element and returns the same collection; only a binder adds listeners; a per-element call and a sub-method of `style`/`classList`/`dataset` record one invocation per element (or per element's object), in order, with the caller's arguments, stopping where a member is not a function; a sub-method keeps the collection or throws; a registered method (with the items as receiver) and a rewrapped function (with receiver `undefined`, see "## Left out") are each called once and their result returned; a thrown error propagates; the empty-collection accessor chaining to an empty wrapper is the corrected behaviour (see "## Findings"), while `Wrapper.CallAsWritten` throws there as the source does |
| Wrapper.ArrayNamesAreNotNumeric | dollar.js:12-15 | no array operation name is taken for a numeric index |
| Wrapper.OrdinaryUnregisteredFallsThrough | dollar.js:42-67 | a name starting with a lower-case letter, `_` or `$` that is neither built in nor registered reaches the collection-dependent rules |
| Wrapper.FallbackReadsElements | dollar.js:75-96 | with a truthy first element, an unregistered ordinary name gives a call on every element when the first element's value is a function, else a `style`/`classList`/`dataset` accessor over the same elements, else every element's value in order |
| Wrapper.NoOpExactlyWithoutFirst | dollar.js:66-73 | a name that is neither built in nor registered gives the no-op accessor exactly when the collection is empty or its first item is falsy |
| Wrapper.GetReadsIndex | dollar.js:12 | reading the numeral of position `i` through the wrapper gives the item at `i`, or `undefined` past the end |
| Wrapper.ArrayOperationRewrapsArrays | dollar.js:15-30 | calling an array operation through the wrapper runs it on the items and rewraps an array result; it returns any other result raw and adds no listeners |
| Wrapper.EventNamesBind | dollar.js:33-39 | every `on…` name is classified as an event binder, whatever the registry and the collection |
| Wrapper.BinderListensOnEveryItem | dollar.js:33-39 | `$(sel).onX(h)` adds listener `X`→`h` to every element in order and returns a wrapper over the same elements |
| Wrapper.Invoked | dollar.js:79-81 | `el[prop](...args)` runs on each receiver in order with that receiver and the caller's arguments, and stops before the first receiver whose member is not a function |
| Wrapper.PerElementCallChainsOrLists | dollar.js:78-88 | a method called on every element is invoked once per element, in order, with the element as receiver and the caller's arguments; the call returns the same collection exactly when the first result is `undefined`, and otherwise one result per element, in order |
| Wrapper.PerElementCallNeedsFunctions | dollar.js:80 | if the member is not a function on some element, the per-element call throws after calling exactly the elements before the first such element, in order |
| Wrapper.RegisteredMethodRewrapsArrays | dollar.js:58-64 | a registered method runs with the wrapper as receiver; an array result is rewrapped and anything else returned directly |
| Wrapper.UseTakesEffect | dollar.js:42-56 | after `use` registers a truthy property under an ordinary name, every wrapper's access to that name resolves to the new definition |
| Wrapper.FunctionPluginRewraps | dollar.js:42-45 | a function registered as a property is applied to the raw items; an array result becomes a wrapper over its items, a primitive result throws, and a function result stays callable through the wrapper, called with receiver `undefined` (see "## Left out") |
| Wrapper.NestedPluginEntries | dollar.js:51-52 | a registered object with truthy `properties` gives a nested accessor over the same items whose function entries are applied to the items and rewrapped, other truthy entries returned as they are and falsy ones read `undefined` |
| Wrapper.IntermediateAccess | dollar.js:90-141 | `style`/`classList`/`dataset` gives an accessor over the same elements; a sub-method is invoked on every element's object, in order, with that object as receiver and the caller's arguments, and keeps the collection; when some element's object lacks it the calls stop there and the call throws; another sub-property reads every element's value, in order |
| Wrapper.EmptyCollectionChains | dollar.js:66-73 | on an empty collection every name that is neither built in nor registered gives the no-op accessor; calling it, or any member read off it, gives an empty wrapper |
| Wrapper.EmptyCallThrowsAsWritten | dollar.js:66-73 | as written, calling any name that is neither built in nor registered directly on an empty collection throws |
| Wrapper.RemoveIsNoBuiltinName | dollar.js:15-33 | `remove` is neither an array operation name nor an event name |
| Wrapper.EmptyRemoveThrowsAsWritten | dollar.js:66-73 | as written, `$('.missing').remove()` with an empty registry throws |
| Broadcast.SetAll | dollar.js:99-104 | assignment through the wrapper reports success and writes once per element, in order; a function value is called with each element to give that element's value |
| Broadcast.SetIntermediate | dollar.js:144-149 | assignment through `style`/`classList`/`dataset` writes into each element's accessor object; a function value is called with the element itself |
| Broadcast.BroadcastStore | dollar.js:99-104 | after the writes every element holds its assigned value under the key, even when an element occurs twice; no other key and no object outside the collection changes |
| Broadcast.LastWriteStays | dollar.js:144-149 | writes under one key to any sequence of targets leave each target with the value of its last write and change no other slot |
| Broadcast.IntermediateStore | dollar.js:144-149 | after an assignment through `style`/`classList`/`dataset`, each element's object holds that element's value under the key unless a later element shares the object; no other slot changes |
| Entry.ContextUnion | dollar.js:177-185 | the result is the context (when it matches) followed by exactly the matching descendants, in order |
| Entry.ContextLeadsIffMatches | dollar.js:177-185 | when descendants never include the context, the context comes first exactly when it matches, and occurs nowhere else |
| Entry.Dollar | dollar.js:162-188 | one string argument queries the document; a context and a string give the context union; a non-element context, a non-string selector and every other argument shape each throw their own TypeError |

## Left out

- The fallback of property reads on `$` itself (dollar.js:206-210) is not modelled. Such reads query the document for `[name], .name`, which is a DOM query.
- dist/dollar.umd.js is a generated bundle and build.js is the build script. Neither is part of this model.
- DOM behaviour is not modelled beyond the `Host` oracles. This includes `querySelectorAll`, `matches`, element property reads, native methods and `isNaN`. Event delivery, and what a listener does when an event fires, are also left out.
- Array operations that mutate the collection (`push`, `splice`, `sort` called through the wrapper) are modelled only by their return value. The model's collection is immutable.
- Numbers are integers. NaN, fractions and the full `isNaN` coercion are a host oracle. Lemmas assume two things about it, each as a precondition: `NumericRespectsNames` (a name starting with a lower-case letter, `_` or `$` is not numeric) and, in `Wrapper.GetReadsIndex`, that the numeral of an index is numeric.
- Exceptions thrown by user code are not modelled. The host's call oracle always returns a value, and the same holds for reads on `null`/`undefined` items and `addEventListener` on items that are not elements.
- A wrapper passed around as a value is modelled as the array it wraps. This is used for the receiver of a registered method (dollar.js:61); plugin functions receive the raw array, as in the source.
- Wrapper.Call: a function that a plugin, a `value` or a nested entry returns is wrapped in a proxy with no `apply` trap (dollar.js:45, dollar.js:113, dollar.js:159), so `$(sel).f()` runs it with the wrapper as `this`, and `$(sel).ns.f()` with the nested accessor as `this`. The model calls it, and records the call, with receiver `undefined`. The nested accessor has no value in the model to pass.
- Wrapper.FunctionPluginRewraps: states the call of a function result with receiver `undefined`, for the reason in the line above.
- Broadcast.IntermediateStore: plain objects have no identity in the model. `Object(fields)` values are equal when their fields are, so two elements whose `style`/`classList`/`dataset` objects are distinct but hold the same fields share one slot, and the later element's write stands for both. In the source each element's object is its own (dollar.js:146). Elements and functions carry an identity and are unaffected.
- `Object.assign` copies nothing from functions and elements in the model (`OwnEntries`). Their own enumerable properties are not modelled.
- Wrapper.Call: calling the empty-collection accessor gives an empty wrapper, the corrected behaviour of the finding below; the source's behaviour, a throw, is `Wrapper.CallAsWritten`, which agrees with `Wrapper.Call` everywhere else.
- Writes to the nested-plugin accessor are not modelled. It has no `set` trap and writes land on a throwaway object.
- `$.use` returns `$` for chaining. The model returns only the new registry.
- A wrapper over a non-array object (a plugin function returning an element or a function) is modelled only as the thing the plugin returned: calling it calls the function, and nothing else. Property reads on it (which run the full `get` trap with that object as the collection, e.g. `$('p').first.id` giving the no-op accessor) and writes to it (which throw, as an element has no `forEach`) are not modelled.
- An own `__proto__` entry in a plugin's `properties` or `methods` (possible with objects built by `JSON.parse`) makes `Object.assign` replace the registry object's prototype, after which inherited names become registered. `SharedState.Assign` stores it as an ordinary name.
- `Array.prototype.__proto__` is not a function, so `$('p').__proto__()` throws in the source. The `arrayOp` oracle always returns a value.
- The empty-collection accessor's `set` trap (dollar.js:71) reports success and writes nothing; the model has no write operation for it. Reads on it are `Wrapper.GetNoOp`, whose call is covered by `Wrapper.EmptyCollectionChains`.

## Findings

| source | as written | input that shows it | evidently intended | confidence | as-written member | corrected member |
|---|---|---|---|---|---|---|
| dollar.js:66-73 | On an empty collection, every fall-through name returns `new Proxy({}, …)`. A proxy over a plain object is not callable. | `$('.missing').remove()` with nothing registered throws "is not a function". | A chain-preserving no-op: calling it yields an empty wrapper, as calling any member read off it already does. | medium; not executed | Wrapper.EmptyRemoveThrowsAsWritten | Wrapper.EmptyCollectionChains |

=== FILE: broadcast.dfy ===
/**
 * Assignment through the wrapper (`$(sel).prop = v`) and through a
 * `style`/`classList`/`dataset` accessor (`$(sel).style.color = v`): the value
 * is written to every item, a function value being called once per item to
 * produce that item's value, and the assignment always reports success.
 */
module Broadcast {
  import opened Js

  /** One property write the host performs. */
  datatype Write = Write(target: Value, key: Key, value: Value)

  /** A property slot of some object. */
  datatype Slot = Slot(target: Value, key: Key)

  /** The properties the writes land in. */
  type Store = map<Slot, Value>

  /** What item `el` receives: a function value is called with the item,
      any other value is written as it is. */
  function Assigned(h: Host, value: Value, el: Value): Value
  {
    if value.Func? then h.call(value, Undefined, [el]) else value
  }

  /** The wrapper's `set` trap. */
  method SetAll(h: Host, items: seq<Value>, key: Key, value: Value) returns (ok: bool, writes: seq<Write>)
    ensures ok
    ensures |writes| == |items|
    ensures forall i :: 0 <= i < |items| ==> writes[i] == Write(items[i], key, Assigned(h, value, items[i]))
  {
    writes := [];
    var n := 0;
    while n < |items|
      invariant 0 <= n <= |items|
      invariant |writes| == n
      invariant forall i :: 0 <= i < n ==> writes[i] == Write(items[i], key, Assigned(h, value, items[i]))
    {
      writes := writes + [Write(items[n], key, Assigned(h, value, items[n]))];
      n := n + 1;
    }
    ok := true;
  }

  /** The `set` trap of a `style`/`classList`/`dataset` accessor: the write
      lands in each item's `name` object, and a function value is still
      called with the item itself. */
  method SetIntermediate(h: Host, items: seq<Value>, name: string, key: Key, value: Value)
    returns (ok: bool, writes: seq<Write>)
    ensures ok
    ensures |writes| == |items|
    ensures forall i :: 0 <= i < |items| ==>
      writes[i] == Write(ReadProp(h, items[i], Name(name)), key, Assigned(h, value, items[i]))
  {
    writes := [];
    var n := 0;
    while n < |items|
      invariant 0 <= n <= |items|
      invariant |writes| == n
      invariant forall i :: 0 <= i < n ==>
        writes[i] == Write(ReadProp(h, items[i], Name(name)), key, Assigned(h, value, items[i]))
    {
      writes := writes + [Write(ReadProp(h, items[n], Name(name)), key, Assigned(h, value, items[n]))];
      n := n + 1;
    }
    ok := true;
  }

  /** Performs writes in order; a later write to a slot replaces an earlier. */
  function ApplyWrites(store: Store, ws: seq<Write>): Store
    decreases |ws|
  {
    if |ws| == 0 then store
    else ApplyWrites(store[Slot(ws[0].target, ws[0].key) := ws[0].value], ws[1..])
  }

  /** The writes of `SetAll`: every item gets its own assigned value. */
  ghost predicate IsBroadcast(h: Host, items: seq<Value>, key: Key, value: Value, ws: seq<Write>)
  {
    |ws| == |items| && forall i :: 0 <= i < |items| ==> ws[i] == Write(items[i], key, Assigned(h, value, items[i]))
  }

  /** After a broadcast assignment every item holds its assigned value under
      the key, even when an item occurs twice, and no other slot changes:
      not another key of an item, and not the key on an object outside the
      collection. */
  lemma {:induction false} BroadcastStore(h: Host, store: Store, items: seq<Value>, key: Key, value: Value, ws: seq<Write>)
    requires IsBroadcast(h, items, key, value, ws)
    ensures var after := ApplyWrites(store, ws);
      && (forall i :: 0 <= i < |items| ==>
            Slot(items[i], key) in after && after[Slot(items[i], key)] == Assigned(h, value, items[i]))
      && (forall s: Slot :: s.key != key || s.target !in items ==>
            (s in after <==> s in store) && (s in store ==> after[s] == store[s]))
    decreases |items|
  {
    if |items| > 0 {
      var next := store[Slot(items[0], key) := Assigned(h, value, items[0])];
      assert IsBroadcast(h, items[1..], key, value, ws[1..]) by {
        forall i | 0 <= i < |items| - 1
          ensures ws[1..][i] == Write(items[1..][i], key, Assigned(h, value, items[1..][i]))
        {
          assert ws[i + 1] == Write(items[i + 1], key, Assigned(h, value, items[i + 1]));
        }
      }
      BroadcastStore(h, next, items[1..], key, value, ws[1..]);
      var after := ApplyWrites(store, ws);
      assert after == ApplyWrites(next, ws[1..]);
      forall i | 0 <= i < |items|
        ensures Slot(items[i], key) in after && after[Slot(items[i], key)] == Assigned(h, value, items[i])
      {
        if i > 0 {
          assert items[i] == items[1..][i - 1];
        } else if items[0] in items[1..] {
          var j :| 0 <= j < |items[1..]| && items[1..][j] == items[0];
        }
      }
      forall s: Slot | s.key != key || s.target !in items
        ensures (s in after <==> s in store) && (s in store ==> after[s] == store[s])
      {
        assert s.key != key || s.target !in items[1..];
        assert s != Slot(items[0], key);
      }
    }
  }

  /** The writes land on `targets`, one per position, under one key. */
  ghost predicate WritesUnder(ws: seq<Write>, targets: seq<Value>, key: Key, vals: seq<Value>)
  {
    && |ws| == |targets| && |vals| == |targets|
    && forall i :: 0 <= i < |ws| ==> ws[i] == Write(targets[i], key, vals[i])
  }

  /** Writes under one key to any targets: a target keeps the value of its
      last write, and no other slot changes. */
  lemma {:induction false} LastWriteStays(store: Store, ws: seq<Write>, targets: seq<Value>, key: Key, vals: seq<Value>)
    requires WritesUnder(ws, targets, key, vals)
    ensures var after := ApplyWrites(store, ws);
      && (forall i :: 0 <= i < |ws| && targets[i] !in targets[i + 1..] ==>
            Slot(targets[i], key) in after && after[Slot(targets[i], key)] == vals[i])
      && (forall s: Slot :: s.key != key || s.target !in targets ==>
            (s in after <==> s in store) && (s in store ==> after[s] == store[s]))
    decreases |ws|
  {
    if |ws| > 0 {
      var next := store[Slot(targets[0], key) := vals[0]];
      assert WritesUnder(ws[1..], targets[1..], key, vals[1..]) by {
        forall i | 0 <= i < |ws| - 1
          ensures ws[1..][i] == Write(targets[1..][i], key, vals[1..][i])
        {
          assert ws[i + 1] == Write(targets[i + 1], key, vals[i + 1]);
        }
      }
      LastWriteStays(next, ws[1..], targets[1..], key, vals[1..]);
      var after := ApplyWrites(store, ws);
      assert ws[0] == Write(targets[0], key, vals[0]);
      assert after == ApplyWrites(next, ws[1..]);
      forall i | 0 <= i < |ws| && targets[i] !in targets[i + 1..]
        ensures Slot(targets[i], key) in after && after[Slot(targets[i], key)] == vals[i]
      {
        if i > 0 {
          assert targets[1..][i - 1] == targets[i];
          assert targets[1..][i - 1 + 1..] == targets[i + 1..];
        }
      }
      forall s: Slot | s.key != key || s.target !in targets
        ensures (s in after <==> s in store) && (s in store ==> after[s] == store[s])
      {
        assert s.key != key || s.target !in targets[1..];
        assert s != Slot(targets[0], key);
      }
    }
  }

  /** After an assignment through a `style`/`classList`/`dataset` accessor,
      each item's object holds that item's assigned value under the key,
      unless a later item shares the object, in which case the later item's
      value stands; no other slot changes. */
  lemma IntermediateStore(h: Host, store: Store, items: seq<Value>, name: string, key: Key, value: Value, ws: seq<Write>)
    requires |ws| == |items|
    requires forall i :: 0 <= i < |items| ==>
      ws[i] == Write(ReadProp(h, items[i], Name(name)), key, Assigned(h, value, items[i]))
    ensures var after := ApplyWrites(store, ws);
      var ts := Namespaces(h, items, name);
      && (forall i :: 0 <= i < |items| && ts[i] !in ts[i + 1..] ==>
            Slot(ts[i], key) in after && after[Slot(ts[i], key)] == Assigned(h, value, items[i]))
      && (forall s: Slot :: s.key != key || s.target !in ts ==>
            (s in after <==> s in store) && (s in store ==> after[s] == store[s]))
  {
    var vals := seq(|items|, i requires 0 <= i < |items| => Assigned(h, value, items[i]));
    LastWriteStays(store, ws, Namespaces(h, items, name), key, vals);
  }
}

=== FILE: decimal.dfy ===
/**
 * Canonical decimal strings. An array's element `i` lives under the property
 * key that prints `i` in decimal without leading zeros, so a numeric-looking
 * name reaches an element only when it is exactly that string.
 */
module Decimal {
  import opened Js

  predicate IsDigit(c: char)
  {
    '0' <= c <= '9'
  }

  function DigitChar(d: nat): (c: char)
    requires d < 10
    ensures IsDigit(c) && DigitValue(c) == d
  {
    ('0' as int + d) as char
  }

  function DigitValue(c: char): nat
    requires IsDigit(c)
  {
    c as int - '0' as int
  }

  predicate AllDigits(s: string)
  {
    forall i :: 0 <= i < |s| ==> IsDigit(s[i])
  }

  /** The form a property key must have to name an array index. */
  predicate IsCanonical(s: string)
  {
    |s| > 0 && AllDigits(s) && (s[0] == '0' ==> |s| == 1)
  }

  /** The decimal numeral of `n`. */
  function NatToString(n: nat): (s: string)
    ensures IsCanonical(s)
    ensures s == "0" <==> n == 0
    decreases n
  {
    if n < 10 then [DigitChar(n)]
    else NatToString(n / 10) + [DigitChar(n % 10)]
  }

  /** The number a string of digits denotes. */
  function DigitsValue(s: string): nat
    requires AllDigits(s)
  {
    if |s| == 0 then 0
    else DigitsValue(s[..|s| - 1]) * 10 + DigitValue(s[|s| - 1])
  }

  /** The index a property key names, if it names one. */
  function ParseIndex(s: string): (r: Option<nat>)
    ensures r.Some? <==> IsCanonical(s)
  {
    if IsCanonical(s) then Some(DigitsValue(s)) else None
  }

  /** Printing an index and reading it back gives the index. */
  lemma {:induction false} ParseOfPrint(n: nat)
    ensures ParseIndex(NatToString(n)) == Some(n)
    decreases n
  {
    var s := NatToString(n);
    if n < 10 {
      assert s[..0] == [];
    } else {
      ParseOfPrint(n / 10);
      assert s[..|s| - 1] == NatToString(n / 10);
      assert DigitsValue(s) == DigitsValue(NatToString(n / 10)) * 10 + n % 10;
    }
  }

  /** A digit string without a leading zero denotes a positive number. */
  lemma {:induction false} LeadingDigitPositive(s: string)
    requires |s| > 0 && AllDigits(s) && s[0] != '0'
    ensures DigitsValue(s) > 0
    decreases |s|
  {
    if |s| > 1 {
      LeadingDigitPositive(s[..|s| - 1]);
    }
  }

  /** Reading a canonical key and printing the index gives the key back, so
      the canonical keys are exactly the printed indices. */
  lemma {:induction false} PrintOfParse(s: string)
    requires IsCanonical(s)
    ensures NatToString(DigitsValue(s)) == s
    decreases |s|
  {
    if |s| > 1 {
      var p := s[..|s| - 1];
      assert IsCanonical(p);
      LeadingDigitPositive(p);
      PrintOfParse(p);
      var n := DigitsValue(s);
      assert n / 10 == DigitsValue(p) && n % 10 == DigitValue(s[|s| - 1]);
      assert s == p + [s[|s| - 1]];
    }
  }

  /** A key names index `n` exactly when it is the numeral of `n`. */
  lemma ParseIndexIsInverse(s: string, n: nat)
    ensures ParseIndex(s) == Some(n) <==> s == NatToString(n)
  {
    ParseOfPrint(n);
    if ParseIndex(s) == Some(n) {
      PrintOfParse(s);
    }
  }
}

=== FILE: dispatch.dfy ===
/**
 * The property-access classifier of the element wrapper's `get` trap. Given
 * the key, the shared registry and two facts about the collection, it picks
 * exactly one outcome. The rules are stated on their own (`Applies`) together
 * with a fixed priority (`Rank`); the classifier picks the applicable rule of
 * highest priority.
 */
module Dispatch {
  import opened Js
  import opened SharedState

  /** The names that get a nested accessor instead of a list of values. */
  const IntermediateNames: set<string> := {"style", "classList", "dataset"}

  /** Names that produce an event binder. */
  predicate IsEventName(s: string)
  {
    |s| >= 2 && s[..2] == "on"
  }

  /** What the classifier needs to know about the collection: whether its
      first item is missing or falsy, and whether that item's value for the
      key is a function. */
  datatype Facts = Facts(noFirst: bool, firstIsFunction: bool)

  datatype Outcome =
    | ElementCount
    | Iterator
    | SymbolError
    | Index
    | ArrayOperation
    | EventBinder
    | RegisteredProperty
    | RegisteredMethod
    | EmptyNoOp
    | PerElementCall
    | IntermediateAccessor
    | ValueList

  /** Resolution order: a smaller rank is tried first. */
  function Rank(o: Outcome): nat
  {
    match o
    case ElementCount => 0
    case Iterator => 1
    case SymbolError => 2
    case Index => 3
    case ArrayOperation => 4
    case EventBinder => 5
    case RegisteredProperty => 6
    case RegisteredMethod => 7
    case EmptyNoOp => 8
    case PerElementCall => 9
    case IntermediateAccessor => 10
    case ValueList => 11
  }

  /** When a rule would fire if every rule before it were silent. A symbol
      other than `Symbol.iterator` reaches `isNaN`, which throws on it. */
  predicate Applies(o: Outcome, isNumeric: string -> bool, reg: Registry, key: Key, facts: Facts)
  {
    match o
    case ElementCount => key == Name("length")
    case Iterator => key == IteratorSymbol
    case SymbolError => key.OtherSymbol?
    case Index => key.Name? && isNumeric(key.s)
    case ArrayOperation => key.Name? && IsArrayPrototypeName(key.s)
    case EventBinder => key.Name? && IsEventName(key.s)
    case RegisteredProperty => key.Name? && Truthy(Lookup(reg.plugins, key.s))
    case RegisteredMethod => key.Name? && Truthy(Lookup(reg.methods, key.s))
    case EmptyNoOp => facts.noFirst
    case PerElementCall => facts.firstIsFunction
    case IntermediateAccessor => key.Name? && key.s in IntermediateNames
    case ValueList => true
  }

  /** No rule ranked before `r` applies: one conjunct per rule. */
  predicate NoneBefore(r: nat, isNumeric: string -> bool, reg: Registry, key: Key, facts: Facts)
  {
    && (Rank(ElementCount) < r ==> !Applies(ElementCount, isNumeric, reg, key, facts))
    && (Rank(Iterator) < r ==> !Applies(Iterator, isNumeric, reg, key, facts))
    && (Rank(SymbolError) < r ==> !Applies(SymbolError, isNumeric, reg, key, facts))
    && (Rank(Index) < r ==> !Applies(Index, isNumeric, reg, key, facts))
    && (Rank(ArrayOperation) < r ==> !Applies(ArrayOperation, isNumeric, reg, key, facts))
    && (Rank(EventBinder) < r ==> !Applies(EventBinder, isNumeric, reg, key, facts))
    && (Rank(RegisteredProperty) < r ==> !Applies(RegisteredProperty, isNumeric, reg, key, facts))
    && (Rank(RegisteredMethod) < r ==> !Applies(RegisteredMethod, isNumeric, reg, key, facts))
    && (Rank(EmptyNoOp) < r ==> !Applies(EmptyNoOp, isNumeric, reg, key, facts))
    && (Rank(PerElementCall) < r ==> !Applies(PerElementCall, isNumeric, reg, key, facts))
    && (Rank(IntermediateAccessor) < r ==> !Applies(IntermediateAccessor, isNumeric, reg, key, facts))
    && (Rank(ValueList) < r ==> !Applies(ValueList, isNumeric, reg, key, facts))
  }

  /** `o` applies and no rule of higher priority does. */
  predicate Selected(o: Outcome, isNumeric: string -> bool, reg: Registry, key: Key, facts: Facts)
  {
    Applies(o, isNumeric, reg, key, facts) && NoneBefore(Rank(o), isNumeric, reg, key, facts)
  }

  /** The `get` trap's decision for `key`. */
  function Classify(isNumeric: string -> bool, reg: Registry, key: Key, facts: Facts): (o: Outcome)
    ensures Applies(o, isNumeric, reg, key, facts)
    ensures Rank(o) > Rank(SymbolError) ==> key.Name?
  {
    if key == Name("length") then ElementCount
    else if key == IteratorSymbol then Iterator
    else if key.OtherSymbol? then SymbolError
    else if isNumeric(key.s) then Index
    else if IsArrayPrototypeName(key.s) then ArrayOperation
    else if IsEventName(key.s) then EventBinder
    else if Truthy(Lookup(reg.plugins, key.s)) then RegisteredProperty
    else if Truthy(Lookup(reg.methods, key.s)) then RegisteredMethod
    else if facts.noFirst then EmptyNoOp
    else if facts.firstIsFunction then PerElementCall
    else if key.s in IntermediateNames then IntermediateAccessor
    else ValueList
  }

  /** Names outside the built-in rules. */
  predicate IsOrdinaryName(isNumeric: string -> bool, name: string)
  {
    name != "length" && !isNumeric(name) && !IsArrayPrototypeName(name) && !IsEventName(name)
  }

  /** The rules decided by the key alone select correctly. */
  lemma SelectsByKey(isNumeric: string -> bool, reg: Registry, key: Key, facts: Facts)
    requires key == Name("length") || !key.Name? || isNumeric(key.s)
    ensures Selected(Classify(isNumeric, reg, key, facts), isNumeric, reg, key, facts)
  {
    if key == Name("length") {
      assert Selected(ElementCount, isNumeric, reg, key, facts);
    } else if key == IteratorSymbol {
      assert Selected(Iterator, isNumeric, reg, key, facts);
    } else if key.OtherSymbol? {
      assert Selected(SymbolError, isNumeric, reg, key, facts);
    } else {
      assert Selected(Index, isNumeric, reg, key, facts);
    }
  }

  /** The rules decided by the name alone select correctly. */
  lemma SelectsByName(isNumeric: string -> bool, reg: Registry, name: string, facts: Facts)
    requires name != "length" && !isNumeric(name)
    requires IsArrayPrototypeName(name) || IsEventName(name)
    ensures Selected(Classify(isNumeric, reg, Name(name), facts), isNumeric, reg, Name(name), facts)
  {
    if IsArrayPrototypeName(name) {
      assert Selected(ArrayOperation, isNumeric, reg, Name(name), facts);
    } else {
      assert Selected(EventBinder, isNumeric, reg, Name(name), facts);
    }
  }

  /** The rules decided by the registry select correctly. */
  lemma SelectsByRegistry(isNumeric: string -> bool, reg: Registry, name: string, facts: Facts)
    requires IsOrdinaryName(isNumeric, name)
    requires Truthy(Lookup(reg.plugins, name)) || Truthy(Lookup(reg.methods, name))
    ensures Selected(Classify(isNumeric, reg, Name(name), facts), isNumeric, reg, Name(name), facts)
  {
    if Truthy(Lookup(reg.plugins, name)) {
      assert Selected(RegisteredProperty, isNumeric, reg, Name(name), facts);
    } else {
      assert Selected(RegisteredMethod, isNumeric, reg, Name(name), facts);
    }
  }

  /** The fallback rules, decided by the collection, select correctly. */
  lemma SelectsByCollection(isNumeric: string -> bool, reg: Registry, name: string, facts: Facts)
    requires IsOrdinaryName(isNumeric, name)
    requires !Truthy(Lookup(reg.plugins, name)) && !Truthy(Lookup(reg.methods, name))
    ensures Selected(Classify(isNumeric, reg, Name(name), facts), isNumeric, reg, Name(name), facts)
  {
    var key := Name(name);
    if facts.noFirst {
      assert Selected(EmptyNoOp, isNumeric, reg, key, facts);
    } else if facts.firstIsFunction {
      assert Selected(PerElementCall, isNumeric, reg, key, facts);
    } else if name in IntermediateNames {
      assert Selected(IntermediateAccessor, isNumeric, reg, key, facts);
    } else {
      assert Selected(ValueList, isNumeric, reg, key, facts);
    }
  }

  /** The classifier's outcome is the applicable rule of highest priority. */
  lemma ClassifySelects(isNumeric: string -> bool, reg: Registry, key: Key, facts: Facts)
    ensures Selected(Classify(isNumeric, reg, key, facts), isNumeric, reg, key, facts)
  {
    if key == Name("length") || !key.Name? || isNumeric(key.s) {
      SelectsByKey(isNumeric, reg, key, facts);
    } else if !IsOrdinaryName(isNumeric, key.s) {
      SelectsByName(isNumeric, reg, key.s, facts);
    } else if Truthy(Lookup(reg.plugins, key.s)) || Truthy(Lookup(reg.methods, key.s)) {
      SelectsByRegistry(isNumeric, reg, key.s, facts);
    } else {
      SelectsByCollection(isNumeric, reg, key.s, facts);
    }
  }

  /** Exactly one outcome is selected for every access: any outcome that
      applies with nothing of higher priority applying is the classifier's. */
  lemma {:induction false} SelectionIsUnique(o: Outcome, isNumeric: string -> bool, reg: Registry, key: Key, facts: Facts)
    ensures Selected(o, isNumeric, reg, key, facts) <==> o == Classify(isNumeric, reg, key, facts)
  {
    var c := Classify(isNumeric, reg, key, facts);
    ClassifySelects(isNumeric, reg, key, facts);
    if Selected(o, isNumeric, reg, key, facts) {
      assert !(Rank(o) < Rank(c));
      assert !(Rank(c) < Rank(o));
      assert Rank(o) == Rank(c);
    }
  }

  /** `length`, array operation names, `on…` names and numeric names are
      decided before the registry is consulted, so a property or method
      registered under such a name is never reached. */
  lemma ReservedNamesNeverReachRegistry(isNumeric: string -> bool, reg: Registry, name: string, facts: Facts)
    requires name == "length" || isNumeric(name) || IsArrayPrototypeName(name) || IsEventName(name)
    ensures Rank(Classify(isNumeric, reg, Name(name), facts)) < Rank(RegisteredProperty)
  {
    var key := Name(name);
    if name == "length" {
      assert Applies(ElementCount, isNumeric, reg, key, facts);
    } else if isNumeric(name) {
      assert Applies(Index, isNumeric, reg, key, facts);
    } else if IsArrayPrototypeName(name) {
      assert Applies(ArrayOperation, isNumeric, reg, key, facts);
    } else {
      assert Applies(EventBinder, isNumeric, reg, key, facts);
    }
  }

  /** A truthy registered property on an ordinary name is chosen whatever the
      collection holds: it shadows the elements' own property. */
  lemma RegisteredPropertyShadowsElements(isNumeric: string -> bool, reg: Registry, name: string, facts: Facts)
    requires IsOrdinaryName(isNumeric, name)
    requires Truthy(Lookup(reg.plugins, name))
    ensures Classify(isNumeric, reg, Name(name), facts) == RegisteredProperty
  {
    SelectionIsUnique(RegisteredProperty, isNumeric, reg, Name(name), facts);
  }

  /** A truthy registered method on an ordinary name is chosen whatever the
      collection holds, unless a registered property of that name is truthy. */
  lemma RegisteredMethodShadowsElements(isNumeric: string -> bool, reg: Registry, name: string, facts: Facts)
    requires IsOrdinaryName(isNumeric, name)
    requires !Truthy(Lookup(reg.plugins, name))
    requires Truthy(Lookup(reg.methods, name))
    ensures Classify(isNumeric, reg, Name(name), facts) == RegisteredMethod
  {
    SelectionIsUnique(RegisteredMethod, isNumeric, reg, Name(name), facts);
  }

  /** The collection facts decide only the fallback rules: any outcome of
      higher priority than the empty-collection no-op is the same for every
      collection. */
  lemma CollectionMattersOnlyForFallback(isNumeric: string -> bool, reg: Registry, key: Key, f1: Facts, f2: Facts)
    requires Rank(Classify(isNumeric, reg, key, f1)) < Rank(EmptyNoOp)
    ensures Classify(isNumeric, reg, key, f2) == Classify(isNumeric, reg, key, f1)
  {
    SelectionIsUnique(Classify(isNumeric, reg, key, f1), isNumeric, reg, key, f2);
  }

  /** The registry decides only names outside the built-in rules: two
      registries give the same outcome on `length`, symbols, numeric names,
      array operation names and `on…` names. */
  lemma RegistryIgnoredForReservedKeys(isNumeric: string -> bool, r1: Registry, r2: Registry, key: Key, facts: Facts)
    requires !key.Name? || !IsOrdinaryName(isNumeric, key.s)
    ensures Classify(isNumeric, r1, key, facts) == Classify(isNumeric, r2, key, facts)
  {
  }
}

=== FILE: entry.dfy ===
/**
 * The `$` entry point: `$(selector)` queries the document, and
 * `$(context, selector)` unions the context's own match with its matching
 * descendants. Every other argument shape is a type error. The result is
 * the item sequence the new wrapper holds.
 */
module Entry {
  import opened Js

  /** The context first when it matches, then its matching descendants in
      the order the host returns them. */
  function ContextUnion(h: Host, context: Value, selector: string): (items: seq<Value>)
    ensures |items| == |h.queryAll(context, selector)| + (if h.matches(context, selector) then 1 else 0)
    ensures items[|items| - |h.queryAll(context, selector)|..] == h.queryAll(context, selector)
    ensures h.matches(context, selector) ==> items[0] == context
  {
    (if h.matches(context, selector) then [context] else []) + h.queryAll(context, selector)
  }

  /** `querySelectorAll` on a context returns descendants only, never the
      context itself. */
  ghost predicate DescendantsExcludeContext(h: Host)
  {
    forall context, selector :: context !in h.queryAll(context, selector)
  }

  /** With descendants excluding the context, the context leads the result
      exactly when it matches, and it appears nowhere else. */
  lemma ContextLeadsIffMatches(h: Host, context: Value, selector: string)
    requires DescendantsExcludeContext(h)
    ensures var items := ContextUnion(h, context, selector);
      && (|items| > 0 && items[0] == context <==> h.matches(context, selector))
      && (forall i :: 0 < i < |items| ==> items[i] != context)
  {
    var items := ContextUnion(h, context, selector);
    var desc := h.queryAll(context, selector);
    assert context !in desc;
    if !h.matches(context, selector) {
      assert items == desc;
    } else {
      forall i | 0 < i < |items|
        ensures items[i] != context
      {
        assert items[i] == desc[i - 1];
      }
    }
  }

  /** The `$` call on its argument list. */
  function Dollar(h: Host, args: seq<Value>): (r: Result<seq<Value>>)
    ensures r.Ok? <==> (|args| == 1 && args[0].Str?) || (|args| == 2 && args[0].Element? && args[1].Str?)
    ensures |args| == 1 && args[0].Str? ==> r.Ok? && r.value == h.queryDocument(args[0].s)
    ensures |args| == 2 && args[0].Element? && args[1].Str? ==>
      r.Ok? && r.value == ContextUnion(h, args[0], args[1].s)
    ensures |args| == 2 && !args[0].Element? ==> r == Err(ContextNotElement)
    ensures |args| == 2 && args[0].Element? && !args[1].Str? ==> r == Err(SelectorNotString)
    ensures |args| != 2 && !(|args| == 1 && args[0].Str?) ==> r == Err(InvalidArguments)
  {
    if |args| == 1 && args[0].Str? then Ok(h.queryDocument(args[0].s))
    else if |args| == 2 then
      if !args[0].Element? then Err(ContextNotElement)
      else if !args[1].Str? then Err(SelectorNotString)
      else Ok(ContextUnion(h, args[0], args[1].s))
    else Err(InvalidArguments)
  }
}

=== FILE: js.dfy ===
/**
 * JavaScript values as the wrapper library sees them, and the browser
 * behaviour it calls into. Everything the host decides (property reads on
 * elements, calls into user or native functions, DOM queries) is a total
 * function supplied in a `Host` value, so the model fixes the library's own
 * decisions and nothing else.
 */
module Js {

  /** A JavaScript value. Numbers are integers (fractions and NaN are not
      represented); elements and functions are opaque handles; a plain
      object is its own enumerable string-keyed fields. */
  datatype Value =
    | Undefined
    | Null
    | Bool(b: bool)
    | Num(n: int)
    | Str(s: string)
    | Element(id: nat)
    | Func(id: nat)
    | Array(items: seq<Value>)
    | Object(fields: map<string, Value>)

  /** A property key: a string, `Symbol.iterator`, or any other symbol. */
  datatype Key = Name(s: string) | IteratorSymbol | OtherSymbol(id: nat)

  /** The type errors the library throws itself, and the ones the host
      throws on its behalf. */
  datatype TypeError =
    | ContextNotElement
    | SelectorNotString
    | InvalidArguments
    | PluginNotObject
    | SymbolToNumber
    | NotAFunction
    | ProxyTargetNotObject

  datatype Option<+T> = None | Some(value: T)

  datatype Result<+T> = Ok(value: T) | Err(error: TypeError)

  /** JavaScript truthiness (`if (v)`). */
  predicate Truthy(v: Value)
  {
    match v
    case Undefined => false
    case Null => false
    case Bool(b) => b
    case Num(n) => n != 0
    case Str(s) => s != []
    case _ => true
  }

  /** The `typeof` operator. */
  function TypeOf(v: Value): string
  {
    match v
    case Undefined => "undefined"
    case Null => "object"
    case Bool(_) => "boolean"
    case Num(_) => "number"
    case Str(_) => "string"
    case Element(_) => "object"
    case Func(_) => "function"
    case Array(_) => "object"
    case Object(_) => "object"
  }

  /** The values a `Proxy` may wrap: objects and functions, not primitives. */
  predicate IsObject(v: Value)
  {
    v.Element? || v.Func? || v.Array? || v.Object?
  }

  /** The browser, as oracles the library consults but does not define. */
  datatype Host = Host(
    /** `!isNaN(s)`: the string coerces to a number. */
    isNumeric: string -> bool,
    /** A property read the library does not decide itself: element
        properties and everything inherited through a prototype. */
    read: (Value, Key) -> Value,
    /** `f.apply(self, args)` for a user-supplied or native function. */
    call: (Value, Value, seq<Value>) -> Value,
    /** `Array.prototype[name].apply(items, args)`. */
    arrayOp: (string, seq<Value>, seq<Value>) -> Value,
    /** `document.querySelectorAll(selector)`, in document order. */
    queryDocument: string -> seq<Value>,
    /** `context.querySelectorAll(selector)`: matching descendants in order. */
    queryAll: (Value, string) -> seq<Value>,
    /** `context.matches(selector)`. */
    matches: (Value, string) -> bool)

  /** `v[k]`: a plain object's own field wins; every other read is the host's. */
  function ReadProp(h: Host, v: Value, k: Key): Value
  {
    if v.Object? && k.Name? && k.s in v.fields then v.fields[k.s] else h.read(v, k)
  }

  /** A name starting with a lower-case ASCII letter, `_` or `$` never
      coerces to a number, so `isNaN` is true of it. */
  ghost predicate NumericRespectsNames(h: Host)
  {
    forall s :: h.isNumeric(s) ==> s == [] || !(('a' <= s[0] <= 'z') || s[0] == '_' || s[0] == '$')
  }

  /** Each item's `name` object, the object a `style`/`classList`/`dataset`
      accessor reads, calls and writes through. */
  function Namespaces(h: Host, items: seq<Value>, name: string): (ts: seq<Value>)
    ensures |ts| == |items|
    ensures forall i :: 0 <= i < |items| ==> ts[i] == ReadProp(h, items[i], Name(name))
  {
    seq(|items|, i requires 0 <= i < |items| => ReadProp(h, items[i], Name(name)))
  }

  /** How many names answer `name in Array.prototype`. */
  const ArrayNameCount: nat := 49

  /** The names `Array.prototype` answers to (as of ECMAScript 2023): its own,
      indices 0 to 39, then those it inherits from `Object.prototype`
      and does not itself redefine. Because everything `Object.prototype` has
      is among them, a lookup in a registry that gets past this test never
      sees an inherited property. The names come in groups of ten. */
  function ArrayName(i: nat): string
    requires i < ArrayNameCount
  {
    if i < 10 then ArrayNameGroup0(i - 0)
    else if i < 20 then ArrayNameGroup1(i - 10)
    else if i < 30 then ArrayNameGroup2(i - 20)
    else if i < 40 then ArrayNameGroup3(i - 30)
    else ArrayNameGroup4(i - 40)
  }

  /** Names 0 to 9 of `ArrayName`. */
  function ArrayNameGroup0(j: nat): string
    requires j < 10
  {
    match j
    case 0 => "length"
    case 1 => "constructor"
    case 2 => "at"
    case 3 => "concat"
    case 4 => "copyWithin"
    case 5 => "entries"
    case 6 => "every"
    case 7 => "fill"
    case 8 => "filter"
    case _ => "find"
  }

  /** Names 10 to 19 of `ArrayName`. */
  function ArrayNameGroup1(j: nat): string
    requires j < 10
  {
    match j
    case 0 => "findIndex"
    case 1 => "findLast"
    case 2 => "findLastIndex"
    case 3 => "flat"
    case 4 => "flatMap"
    case 5 => "forEach"
    case 6 => "includes"
    case 7 => "indexOf"
    case 8 => "join"
    case _ => "keys"
  }

  /** Names 20 to 29 of `ArrayName`. */
  function ArrayNameGroup2(j: nat): string
    requires j < 10
  {
    match j
    case 0 => "lastIndexOf"
    case 1 => "map"
    case 2 => "pop"
    case 3 => "push"
    case 4 => "reduce"
    case 5 => "reduceRight"
    case 6 => "reverse"
    case 7 => "shift"
    case 8 => "slice"
    case _ => "some"
  }

  /** Names 30 to 39 of `ArrayName`. */
  function ArrayNameGroup3(j: nat): string
    requires j < 10
  {
    match j
    case 0 => "sort"
    case 1 => "splice"
    case 2 => "toLocaleString"
    case 3 => "toReversed"
    case 4 => "toSorted"
    case 5 => "toSpliced"
    case 6 => "toString"
    case 7 => "unshift"
    case 8 => "values"
    case _ => "with"
  }

  /** Names 40 to 48 of `ArrayName`. */
  function ArrayNameGroup4(j: nat): string
    requires j < 9
  {
    match j
    case 0 => "hasOwnProperty"
    case 1 => "isPrototypeOf"
    case 2 => "propertyIsEnumerable"
    case 3 => "valueOf"
    case 4 => "__proto__"
    case 5 => "__defineGetter__"
    case 6 => "__defineSetter__"
    case 7 => "__lookupGetter__"
    case _ => "__lookupSetter__"
  }

  /** `n` is one of the names from index `i` on. */
  predicate ListedFrom(n: string, i: nat)
    decreases ArrayNameCount - i
  {
    i < ArrayNameCount && (ArrayName(i) == n || ListedFrom(n, i + 1))
  }

  /** `name in Array.prototype` for a string name. */
  predicate IsArrayPrototypeName(n: string)
  {
    ListedFrom(n, 0)
  }

  /** How every `Array.prototype` name begins: with `_` or a lower-case
      letter other than `o`. */
  predicate BeginsLikeArrayName(n: string)
  {
    |n| > 0 && n[0] != 'o' && (('a' <= n[0] <= 'z') || n[0] == '_')
  }

  /** Each `Array.prototype` name begins like one. */
  lemma ArrayNameBegins(i: nat)
    requires i < ArrayNameCount
    ensures BeginsLikeArrayName(ArrayName(i))
  {
    if i < 10 {
      GroupBegins0(i - 0);
    } else if i < 20 {
      GroupBegins1(i - 10);
    } else if i < 30 {
      GroupBegins2(i - 20);
    } else if i < 40 {
      GroupBegins3(i - 30);
    } else if i < 49 {
      GroupBegins4(i - 40);
    }
  }

  lemma GroupBegins0(j: nat)
    requires j < 10
    ensures BeginsLikeArrayName(ArrayNameGroup0(j))
  {
  }

  lemma GroupBegins1(j: nat)
    requires j < 10
    ensures BeginsLikeArrayName(ArrayNameGroup1(j))
  {
  }

  lemma GroupBegins2(j: nat)
    requires j < 10
    ensures BeginsLikeArrayName(ArrayNameGroup2(j))
  {
  }

  lemma GroupBegins3(j: nat)
    requires j < 10
    ensures BeginsLikeArrayName(ArrayNameGroup3(j))
  {
  }

  lemma GroupBegins4(j: nat)
    requires j < 9
    ensures BeginsLikeArrayName(ArrayNameGroup4(j))
  {
  }

  /** Each name from index `i` on begins like an `Array.prototype` name. */
  lemma {:induction false} ListedBeginsLikeArrayName(n: string, i: nat)
    requires ListedFrom(n, i)
    ensures BeginsLikeArrayName(n)
    decreases ArrayNameCount - i
  {
    if ArrayName(i) != n {
      ListedBeginsLikeArrayName(n, i + 1);
    } else {
      ArrayNameBegins(i);
    }
  }

  /** No `Array.prototype` name begins with `o` (so none is an `on…` name),
      and none begins with a character a number can begin with. */
  lemma ArrayNamesBeginPlainly(n: string)
    requires IsArrayPrototypeName(n)
    ensures BeginsLikeArrayName(n)
  {
    ListedBeginsLikeArrayName(n, 0);
  }

  /** A name that no listed name from index `i` on equals is not listed. */
  lemma {:induction false} UnlistedFrom(n: string, i: nat)
    requires forall k :: i <= k < ArrayNameCount ==> ArrayName(k) != n
    ensures !ListedFrom(n, i)
    decreases ArrayNameCount - i
  {
    if i < ArrayNameCount {
      UnlistedFrom(n, i + 1);
    }
  }
}

=== FILE: shared_state.dfy ===
/**
 * The shared extension registry (`sharedState`) and the `$.use` call that
 * is its only writer. Every wrapper reads the one shared pair of maps at the
 * moment a property is looked up, so the model hands the current registry to
 * each lookup instead of storing a copy in each wrapper.
 */
module SharedState {
  import opened Js
  import Decimal

  /** Registered properties ("plugins") and registered methods by name. */
  datatype Registry = Registry(plugins: map<string, Value>, methods: map<string, Value>)

  /** The registry before any `use` call. */
  const Initial: Registry := Registry(map[], map[])

  /** `m[name]` on the plain object that holds a registry map. */
  function Lookup(m: map<string, Value>, name: string): Value
  {
    if name in m then m[name] else Undefined
  }

  /** The own enumerable properties of an array-like source, keyed by the
      numeral of each index. */
  function IndexEntries(xs: seq<Value>): map<string, Value>
  {
    if |xs| == 0 then map[]
    else IndexEntries(xs[..|xs| - 1])[Decimal.NatToString(|xs| - 1) := xs[|xs| - 1]]
  }

  /** The entries `Object.assign` copies out of a source value: a plain
      object's fields, an array's elements, a string's characters; nothing
      from a number or boolean. */
  function OwnEntries(v: Value): map<string, Value>
  {
    match v
    case Object(f) => f
    case Array(xs) => IndexEntries(xs)
    case Str(s) => IndexEntries(seq(|s|, i requires 0 <= i < |s| => Str([s[i]])))
    case _ => map[]
  }

  /** The entries a plugin contributes under `field` (`properties` or
      `methods`): none when the field is falsy. */
  function Incoming(h: Host, plugin: Value, field: string): map<string, Value>
  {
    var src := ReadProp(h, plugin, Name(field));
    if Truthy(src) then OwnEntries(src) else map[]
  }

  /** `Object.assign(target, source)` on a name-keyed map: every incoming
      name takes the incoming value, every other name keeps its value, and
      no name disappears. */
  function Assign(target: map<string, Value>, source: map<string, Value>): (r: map<string, Value>)
    ensures r.Keys == target.Keys + source.Keys
    ensures forall k :: k in source ==> r[k] == source[k]
    ensures forall k :: k in target && k !in source ==> r[k] == target[k]
  {
    target + source
  }

  /** `$.use(plugin)`: merges `plugin.properties` into the registered
      properties and `plugin.methods` into the registered methods, or throws
      when the argument is missing (undefined) or not an object. */
  function Use(h: Host, reg: Registry, plugin: Value): (r: Result<Registry>)
    ensures r.Err? <==> !Truthy(plugin) || TypeOf(plugin) != "object"
    ensures r.Err? ==> r.error == PluginNotObject
    ensures r.Ok? ==> r.value.plugins == Assign(reg.plugins, Incoming(h, plugin, "properties"))
    ensures r.Ok? ==> r.value.methods == Assign(reg.methods, Incoming(h, plugin, "methods"))
  {
    if !Truthy(plugin) || TypeOf(plugin) != "object" then Err(PluginNotObject)
    else
      var plugins := if Truthy(ReadProp(h, plugin, Name("properties")))
        then Assign(reg.plugins, Incoming(h, plugin, "properties")) else reg.plugins;
      var methods := if Truthy(ReadProp(h, plugin, Name("methods")))
        then Assign(reg.methods, Incoming(h, plugin, "methods")) else reg.methods;
      Ok(Registry(plugins, methods))
  }

  /** A successful `use` never removes a registered name. */
  lemma UseNeverRemoves(h: Host, reg: Registry, plugin: Value)
    requires Use(h, reg, plugin).Ok?
    ensures reg.plugins.Keys <= Use(h, reg, plugin).value.plugins.Keys
    ensures reg.methods.Keys <= Use(h, reg, plugin).value.methods.Keys
    ensures forall k :: k in reg.plugins && k !in Incoming(h, plugin, "properties") ==>
      Use(h, reg, plugin).value.plugins[k] == reg.plugins[k]
    ensures forall k :: k in reg.methods && k !in Incoming(h, plugin, "methods") ==>
      Use(h, reg, plugin).value.methods[k] == reg.methods[k]
  {
  }

  /** Two registrations in a row: the later definition of a name wins, an
      earlier one survives where the later plugin is silent, and names
      neither plugin mentions keep what they had. */
  lemma UseLastWriteWins(h: Host, reg: Registry, first: Value, second: Value, name: string)
    requires Use(h, reg, first).Ok?
    requires Use(h, Use(h, reg, first).value, second).Ok?
    ensures var after := Use(h, Use(h, reg, first).value, second).value;
      var p1 := Incoming(h, first, "properties");
      var p2 := Incoming(h, second, "properties");
      && Lookup(after.plugins, name) ==
           (if name in p2 then p2[name]
            else if name in p1 then p1[name]
            else Lookup(reg.plugins, name))
    ensures var after := Use(h, Use(h, reg, first).value, second).value;
      var m1 := Incoming(h, first, "methods");
      var m2 := Incoming(h, second, "methods");
      && Lookup(after.methods, name) ==
           (if name in m2 then m2[name]
            else if name in m1 then m1[name]
            else Lookup(reg.methods, name))
  {
  }
}

=== FILE: wrapper.dfy ===
/**
 * What a property access on the element wrapper returns, and what calling
 * the returned functions does. The collection is the wrapper's item
 * sequence; the registry is the shared one in force at the access.
 */
module Wrapper {
  import opened Js
  import opened SharedState
  import opened Dispatch
  import Decimal

  /** The result of a property access or a call. Closures and accessors
      remember the collection they were taken from. */
  datatype Got =
    | Count(n: nat)                                      // `length`
    | IteratorFn(items: seq<Value>)                      // the bound array iterator
    | Iteration(items: seq<Value>)                       // what iterating it yields
    | Raw(v: Value)                                      // a value handed back unchanged
    | Wrapped(items: seq<Value>)                         // a wrapper over an array
    | WrappedObject(target: Value)                       // a wrapper over a non-array object
    | ArrayFn(items: seq<Value>, name: string)           // an `Array.prototype` operation
    | BinderFn(items: seq<Value>, event: string)         // an `on…` binder
    | MethodFn(items: seq<Value>, definition: Value)     // a registered method
    | PerElementFn(items: seq<Value>, name: string)      // a call on every element
    | Namespace(items: seq<Value>, properties: Value)    // a registered `properties` accessor
    | Intermediate(items: seq<Value>, name: string)      // a `style`/`classList`/`dataset` accessor
    | IntermediateFn(items: seq<Value>, name: string, key: Key)
    | NoOp                                               // the empty-collection accessor
    | NoOpFn                                             // any member read off it
    | Values(vals: seq<Value>)                           // one value per element
    | Thrown(error: TypeError)

  /** A listener the event binder registers. */
  datatype Listener = Listener(target: Value, event: string, handler: Value)

  /** A user or element function the library calls on the caller's behalf:
      `fn` applied to `args` with receiver `self`. */
  datatype Invocation = Invocation(fn: Value, self: Value, args: seq<Value>)

  /** The result of calling a returned function, with the listeners it added
      and the user or element functions it called directly, in order. Calls
      made inside an `Array.prototype` operation (the callback of `forEach`,
      `map`, …) are the `arrayOp` oracle's and are not recorded. */
  datatype Called = Called(result: Got, listeners: seq<Listener>, calls: seq<Invocation>)

  /** The facts the classifier reads off a collection for `key`. */
  function FactsOf(h: Host, items: seq<Value>, key: Key): (f: Facts)
    ensures f.noFirst <==> |items| == 0 || !Truthy(items[0])
    ensures f.firstIsFunction <==> !f.noFirst && ReadProp(h, items[0], key).Func?
  {
    var noFirst := |items| == 0 || !Truthy(items[0]);
    Facts(noFirst, !noFirst && ReadProp(h, items[0], key).Func?)
  }

  /** `createElementProxy(v)`: an array becomes a wrapper over its items; a
      primitive cannot be a proxy target. */
  function Rewrap(v: Value): (g: Got)
    ensures v.Array? <==> g.Wrapped?
    ensures g.Wrapped? ==> g.items == v.items
    ensures g.Thrown? <==> !IsObject(v)
  {
    if v.Array? then Wrapped(v.items)
    else if IsObject(v) then WrappedObject(v)
    else Thrown(ProxyTargetNotObject)
  }

  /** `items[s]` for a numeric-looking name. */
  function IndexRead(items: seq<Value>, s: string): Value
  {
    match Decimal.ParseIndex(s)
    case Some(i) => if i < |items| then items[i] else Undefined
    case None => Undefined
  }

  /** The numeral of a position reads the item there, and past the end reads
      `undefined`. */
  lemma IndexReadsPosition(items: seq<Value>, i: nat)
    ensures IndexRead(items, Decimal.NatToString(i)) == if i < |items| then items[i] else Undefined
  {
    Decimal.ParseOfPrint(i);
  }

  /** A numeric-looking name that is not the numeral of any position (`"01"`,
      `"1.5"`, `""`, `" 1"`) reads `undefined`. */
  lemma NonNumeralReadsUndefined(items: seq<Value>, s: string)
    requires forall i: nat :: s != Decimal.NatToString(i)
    ensures IndexRead(items, s) == Undefined
  {
    if Decimal.ParseIndex(s).Some? {
      Decimal.PrintOfParse(s);
    }
  }

  /** A registered property's value: a function is applied to the items and
      the result rewrapped; an object with a truthy `value` has it applied
      the same way; an object with truthy `properties` gives a nested
      accessor; anything else comes back as it is. */
  function PropertyResult(h: Host, items: seq<Value>, def: Value): (g: Got)
    ensures def.Func? ==> g == Rewrap(h.call(def, Undefined, [Array(items)]))
    ensures TypeOf(def) == "object" && ReadProp(h, def, Name("value")).Func? ==>
      g == Rewrap(h.call(ReadProp(h, def, Name("value")), def, [Array(items)]))
    ensures (TypeOf(def) == "object" && Truthy(ReadProp(h, def, Name("value")))
      && !ReadProp(h, def, Name("value")).Func?) ==> g == Thrown(NotAFunction)
    ensures (TypeOf(def) == "object" && !Truthy(ReadProp(h, def, Name("value")))
      && Truthy(ReadProp(h, def, Name("properties")))) ==> g == Namespace(items, ReadProp(h, def, Name("properties")))
    ensures (!def.Func? && (TypeOf(def) != "object" ||
      (!Truthy(ReadProp(h, def, Name("value"))) && !Truthy(ReadProp(h, def, Name("properties")))))) ==> g == Raw(def)
  {
    if def.Func? then Rewrap(h.call(def, Undefined, [Array(items)]))
    else if TypeOf(def) == "object" && Truthy(ReadProp(h, def, Name("value"))) then
      var f := ReadProp(h, def, Name("value"));
      if f.Func? then Rewrap(h.call(f, def, [Array(items)])) else Thrown(NotAFunction)
    else if TypeOf(def) == "object" && Truthy(ReadProp(h, def, Name("properties"))) then
      Namespace(items, ReadProp(h, def, Name("properties")))
    else Raw(def)
  }

  /** The closures and accessors that remember a collection. */
  predicate HoldsItems(g: Got)
  {
    g.ArrayFn? || g.BinderFn? || g.MethodFn? || g.PerElementFn? || g.Namespace? || g.Intermediate?
  }

  /** Each element's value for `key`, in order. */
  function ValuesOf(h: Host, items: seq<Value>, key: Key): (vals: seq<Value>)
    ensures |vals| == |items|
    ensures forall i :: 0 <= i < |items| ==> vals[i] == ReadProp(h, items[i], key)
  {
    seq(|items|, i requires 0 <= i < |items| => ReadProp(h, items[i], key))
  }

  /** The wrapper's `get` trap. */
  function Get(h: Host, reg: Registry, items: seq<Value>, key: Key): (g: Got)
    ensures key == Name("length") ==> g == Count(|items|)
    ensures key == IteratorSymbol ==> g == IteratorFn(items)
    ensures key.OtherSymbol? ==> g == Thrown(SymbolToNumber)
    ensures HoldsItems(g) ==> g.items == items
    ensures g.Values? ==> g.vals == ValuesOf(h, items, key)
    ensures g.NoOp? <==> Classify(h.isNumeric, reg, key, FactsOf(h, items, key)) == EmptyNoOp
    ensures g.BinderFn? ==> key.Name? && IsEventName(key.s) && g.event == key.s[2..]
  {
    match Classify(h.isNumeric, reg, key, FactsOf(h, items, key))
    case ElementCount => Count(|items|)
    case Iterator => IteratorFn(items)
    case SymbolError => Thrown(SymbolToNumber)
    case Index => Raw(IndexRead(items, key.s))
    case ArrayOperation => ArrayFn(items, key.s)
    case EventBinder => BinderFn(items, key.s[2..])
    case RegisteredProperty => PropertyResult(h, items, Lookup(reg.plugins, key.s))
    case RegisteredMethod => MethodFn(items, Lookup(reg.methods, key.s))
    case EmptyNoOp => NoOp
    case PerElementCall => PerElementFn(items, key.s)
    case IntermediateAccessor => Intermediate(items, key.s)
    case ValueList => Values(ValuesOf(h, items, key))
  }

  /** The `get` trap of a registered `properties` accessor: a truthy function
      entry is applied to the items and rewrapped, another truthy entry comes
      back as it is, and a falsy one gives `undefined`. */
  function GetNamespace(h: Host, items: seq<Value>, properties: Value, key: Key): (g: Got)
    ensures !Truthy(ReadProp(h, properties, key)) ==> g == Raw(Undefined)
    ensures Truthy(ReadProp(h, properties, key)) && ReadProp(h, properties, key).Func? ==>
      g == Rewrap(h.call(ReadProp(h, properties, key), Undefined, [Array(items)]))
    ensures Truthy(ReadProp(h, properties, key)) && !ReadProp(h, properties, key).Func? ==>
      g == Raw(ReadProp(h, properties, key))
  {
    var p := ReadProp(h, properties, key);
    if !Truthy(p) then Raw(Undefined)
    else if p.Func? then Rewrap(h.call(p, Undefined, [Array(items)]))
    else Raw(p)
  }

  /** The `get` trap of a `style`/`classList`/`dataset` accessor. With no
      first item it gives `undefined`: the check meant to return a no-op
      there tests whether the key is a function, which no key is. */
  function GetIntermediate(h: Host, items: seq<Value>, name: string, key: Key): (g: Got)
    ensures |items| == 0 || !Truthy(items[0]) ==> g == Raw(Undefined)
    ensures (|items| > 0 && Truthy(items[0]) && ReadProp(h, ReadProp(h, items[0], Name(name)), key).Func?) ==>
      g == IntermediateFn(items, name, key)
    ensures (|items| > 0 && Truthy(items[0]) && !ReadProp(h, ReadProp(h, items[0], Name(name)), key).Func?) ==>
      (g.Values? && |g.vals| == |items| &&
       forall i :: 0 <= i < |items| ==> g.vals[i] == ReadProp(h, ReadProp(h, items[i], Name(name)), key))
  {
    if |items| == 0 || !Truthy(items[0]) then Raw(Undefined)
    else if ReadProp(h, ReadProp(h, items[0], Name(name)), key).Func? then IntermediateFn(items, name, key)
    else Values(seq(|items|, i requires 0 <= i < |items| => ReadProp(h, ReadProp(h, items[i], Name(name)), key)))
  }

  /** Any member read off the empty-collection accessor. */
  function GetNoOp(key: Key): (g: Got)
    ensures g == NoOpFn
  {
    NoOpFn
  }

  /** An array operation's result: an array is rewrapped, anything else
      (an element, a boolean, a number) is returned unchanged. */
  function ArrayOpResult(r: Value): (g: Got)
    ensures r.Array? ==> g == Wrapped(r.items)
    ensures !r.Array? ==> g == Raw(r)
  {
    if r.Array? then Wrapped(r.items) else Raw(r)
  }

  /** The listeners an `on…` binder adds: one per item, in order. */
  function BinderListeners(items: seq<Value>, event: string, handler: Value): (ls: seq<Listener>)
    ensures |ls| == |items|
    ensures forall i :: 0 <= i < |items| ==> ls[i] == Listener(items[i], event, handler)
  {
    seq(|items|, i requires 0 <= i < |items| => Listener(items[i], event, handler))
  }

  /** The results of calling `name` on every item, in order. */
  function CallEach(h: Host, items: seq<Value>, name: string, args: seq<Value>): (rs: seq<Value>)
    ensures |rs| == |items|
  {
    seq(|items|, i requires 0 <= i < |items| => h.call(ReadProp(h, items[i], Name(name)), items[i], args))
  }

  /** `self[key](...args)` on each receiver in turn, as `map` and `forEach`
      run it: the calls stop before the first receiver whose member is not a
      function, where the host throws. */
  function Invoked(h: Host, selves: seq<Value>, key: Key, args: seq<Value>): (calls: seq<Invocation>)
    ensures |calls| <= |selves|
    ensures forall i :: 0 <= i < |calls| ==>
      calls[i] == Invocation(ReadProp(h, selves[i], key), selves[i], args) && calls[i].fn.Func?
    ensures |calls| < |selves| ==> !ReadProp(h, selves[|calls|], key).Func?
    decreases |selves|
  {
    if |selves| == 0 || !ReadProp(h, selves[0], key).Func? then []
    else [Invocation(ReadProp(h, selves[0], key), selves[0], args)] + Invoked(h, selves[1..], key, args)
  }

  /** Every item's value for `name` is a function. */
  predicate AllCallable(h: Host, items: seq<Value>, name: string)
  {
    forall i :: 0 <= i < |items| ==> ReadProp(h, items[i], Name(name)).Func?
  }

  /** Every item's `name` namespace has a function under `key`. */
  predicate AllNamespaceCallable(h: Host, items: seq<Value>, name: string, key: Key)
  {
    forall i :: 0 <= i < |items| ==> ReadProp(h, ReadProp(h, items[i], Name(name)), key).Func?
  }

  /** Calling what a property access returned. The empty-collection accessor
      is treated as a chainable no-op; see `CallAsWritten` for the source's
      behaviour there. */
  function Call(h: Host, g: Got, args: seq<Value>): (c: Called)
    ensures g.BinderFn? ==> (c.result == Wrapped(g.items) &&
      c.listeners == BinderListeners(g.items, g.event, if |args| > 0 then args[0] else Undefined))
    ensures !g.BinderFn? ==> c.listeners == []
    ensures g.ArrayFn? ==> c.result == ArrayOpResult(h.arrayOp(g.name, g.items, args))
    ensures g.PerElementFn? ==> c.calls == Invoked(h, g.items, Name(g.name), args)
    ensures g.IntermediateFn? ==> c.calls == Invoked(h, Namespaces(h, g.items, g.name), g.key, args)
    ensures g.IntermediateFn? && AllNamespaceCallable(h, g.items, g.name, g.key) ==> c.result == Wrapped(g.items)
    ensures g.IntermediateFn? && !AllNamespaceCallable(h, g.items, g.name, g.key) ==> c.result == Thrown(NotAFunction)
    ensures g.MethodFn? && g.definition.Func? ==> c.calls == [Invocation(g.definition, Array(g.items), args)]
    ensures g.NoOp? || g.NoOpFn? ==> c.result == Wrapped([])
    ensures g.Raw? && g.v.Func? ==>
      c.result == Raw(h.call(g.v, Undefined, args)) && c.calls == [Invocation(g.v, Undefined, args)]
    ensures g.WrappedObject? && g.target.Func? ==>
      c.result == Raw(h.call(g.target, Undefined, args)) && c.calls == [Invocation(g.target, Undefined, args)]
    ensures g.IteratorFn? || g.ArrayFn? || g.BinderFn? || g.NoOp? || g.NoOpFn? || g.Thrown? ==> c.calls == []
    ensures g.Thrown? ==> c.result == g
  {
    match g
    case IteratorFn(items) => Called(Iteration(items), [], [])
    case ArrayFn(items, name) => Called(ArrayOpResult(h.arrayOp(name, items, args)), [], [])
    case BinderFn(items, event) =>
      Called(Wrapped(items), BinderListeners(items, event, if |args| > 0 then args[0] else Undefined), [])
    case MethodFn(items, m) =>
      if m.Func? then
        var r := h.call(m, Array(items), args);
        Called(if r.Array? then Wrapped(r.items) else Raw(r), [], [Invocation(m, Array(items), args)])
      else Called(Thrown(NotAFunction), [], [])
    case PerElementFn(items, name) =>
      var calls := Invoked(h, items, Name(name), args);
      if !AllCallable(h, items, name) then Called(Thrown(NotAFunction), [], calls)
      else
        var rs := CallEach(h, items, name, args);
        Called(if |rs| == 0 || rs[0] == Undefined then Wrapped(items) else Values(rs), [], calls)
    case IntermediateFn(items, name, key) =>
      var calls := Invoked(h, Namespaces(h, items, name), key, args);
      if AllNamespaceCallable(h, items, name, key) then Called(Wrapped(items), [], calls)
      else Called(Thrown(NotAFunction), [], calls)
    case NoOp => Called(Wrapped([]), [], [])
    case NoOpFn => Called(Wrapped([]), [], [])
    case Raw(v) =>
      if v.Func? then Called(Raw(h.call(v, Undefined, args)), [], [Invocation(v, Undefined, args)])
      else Called(Thrown(NotAFunction), [], [])
    case WrappedObject(t) =>
      if t.Func? then Called(Raw(h.call(t, Undefined, args)), [], [Invocation(t, Undefined, args)])
      else Called(Thrown(NotAFunction), [], [])
    case Thrown(e) => Called(Thrown(e), [], [])
    case _ => Called(Thrown(NotAFunction), [], [])
  }

  /** The source's call semantics: the empty-collection accessor is a proxy
      over a plain object, which is not callable. */
  function CallAsWritten(h: Host, g: Got, args: seq<Value>): (c: Called)
    ensures g.NoOp? ==> c.result == Thrown(NotAFunction)
    ensures !g.NoOp? ==> c == Call(h, g, args)
  {
    if g.NoOp? then Called(Thrown(NotAFunction), [], []) else Call(h, g, args)
  }

  /** Every name `Array.prototype` answers to starts with a lower-case
      letter or `_`, so none of them looks numeric. */
  lemma ArrayNamesAreNotNumeric(h: Host, name: string)
    requires NumericRespectsNames(h)
    requires IsArrayPrototypeName(name)
    ensures !h.isNumeric(name)
  {
    ArrayNamesBeginPlainly(name);
  }

  /** A name that starts with a lower-case letter, `_` or `$` and is neither
      built in nor registered falls through to the collection. */
  lemma OrdinaryUnregisteredFallsThrough(h: Host, reg: Registry, items: seq<Value>, name: string)
    requires NumericRespectsNames(h)
    requires name != [] && (('a' <= name[0] <= 'z') || name[0] == '_' || name[0] == '$')
    requires name != "length" && !IsArrayPrototypeName(name) && !IsEventName(name)
    requires !Truthy(Lookup(reg.plugins, name)) && !Truthy(Lookup(reg.methods, name))
    ensures Rank(Classify(h.isNumeric, reg, Name(name), FactsOf(h, items, Name(name)))) >= Rank(EmptyNoOp)
  {
    var facts := FactsOf(h, items, Name(name));
    var o := Classify(h.isNumeric, reg, Name(name), facts);
    assert Applies(o, h.isNumeric, reg, Name(name), facts);
  }

  /** With a truthy first element, an ordinary unregistered name reads the
      elements themselves: a method becomes a call on every element, a
      `style`/`classList`/`dataset` name an accessor over the same elements,
      and any other name the list of every element's value, in order. */
  lemma FallbackReadsElements(h: Host, reg: Registry, items: seq<Value>, name: string)
    requires IsOrdinaryName(h.isNumeric, name)
    requires !Truthy(Lookup(reg.plugins, name)) && !Truthy(Lookup(reg.methods, name))
    requires |items| > 0 && Truthy(items[0])
    ensures var g := Get(h, reg, items, Name(name));
      && (ReadProp(h, items[0], Name(name)).Func? ==> g == PerElementFn(items, name))
      && (!ReadProp(h, items[0], Name(name)).Func? && name in IntermediateNames ==> g == Intermediate(items, name))
      && (!ReadProp(h, items[0], Name(name)).Func? && name !in IntermediateNames ==>
            g.Values? && |g.vals| == |items| &&
            forall i :: 0 <= i < |items| ==> g.vals[i] == ReadProp(h, items[i], Name(name)))
  {
    var facts := FactsOf(h, items, Name(name));
    SelectsByCollection(h.isNumeric, reg, name, facts);
    SelectionIsUnique(Classify(h.isNumeric, reg, Name(name), facts), h.isNumeric, reg, Name(name), facts);
  }

  /** The numeral of a position reads the item at that position, or
      `undefined` past the end. */
  lemma GetReadsIndex(h: Host, reg: Registry, items: seq<Value>, i: nat)
    requires h.isNumeric(Decimal.NatToString(i))
    ensures Get(h, reg, items, Name(Decimal.NatToString(i))) == Raw(if i < |items| then items[i] else Undefined)
  {
    var s := Decimal.NatToString(i);
    assert Decimal.IsDigit(s[0]);
    assert s != "length";
    IndexReadsPosition(items, i);
  }

  /** An `Array.prototype` operation runs on the items; an array result is
      rewrapped, any other result is returned unchanged. */
  lemma ArrayOperationRewrapsArrays(h: Host, reg: Registry, items: seq<Value>, name: string, args: seq<Value>)
    requires NumericRespectsNames(h)
    requires IsArrayPrototypeName(name) && name != "length"
    ensures var r := h.arrayOp(name, items, args);
      var c := Call(h, Get(h, reg, items, Name(name)), args);
      && (r.Array? ==> c.result == Wrapped(r.items))
      && (!r.Array? ==> c.result == Raw(r))
      && c.listeners == []
  {
    ArrayNamesAreNotNumeric(h, name);
    var facts := FactsOf(h, items, Name(name));
    SelectionIsUnique(ArrayOperation, h.isNumeric, reg, Name(name), facts);
  }

  /** Every `on…` name is classified as an event binder. */
  lemma EventNamesBind(h: Host, reg: Registry, name: string, facts: Facts)
    requires NumericRespectsNames(h)
    requires IsEventName(name)
    ensures Classify(h.isNumeric, reg, Name(name), facts) == EventBinder
  {
    assert name[0] == 'o' by {
      assert name[..2] == "on";
      assert name[0] == name[..2][0];
    }
    if IsArrayPrototypeName(name) {
      ArrayNamesBeginPlainly(name);
    }
    assert !h.isNumeric(name) && name != "length";
  }

  /** The `on…` binder adds one listener per item, in order, for the event
      named by the key without its first two characters, and returns a
      wrapper over the same items. */
  lemma BinderListensOnEveryItem(h: Host, reg: Registry, items: seq<Value>, name: string, handler: Value, rest: seq<Value>)
    requires NumericRespectsNames(h)
    requires IsEventName(name)
    ensures var c := Call(h, Get(h, reg, items, Name(name)), [handler] + rest);
      && c.result == Wrapped(items)
      && |c.listeners| == |items|
      && forall i :: 0 <= i < |items| ==> c.listeners[i] == Listener(items[i], name[2..], handler)
  {
    EventNamesBind(h, reg, name, FactsOf(h, items, Name(name)));
    var args := [handler] + rest;
    assert args[0] == handler;
  }

  /** A per-element call runs the member on every item in order, each with
      the item as receiver and the caller's arguments. When the first result
      is `undefined` the caller gets a wrapper over the same items to keep
      chaining; otherwise it gets the results, one per item. */
  lemma PerElementCallChainsOrLists(h: Host, items: seq<Value>, name: string, args: seq<Value>)
    requires |items| > 0
    requires AllCallable(h, items, name)
    ensures var calls := Call(h, PerElementFn(items, name), args).calls;
      && |calls| == |items|
      && forall i :: 0 <= i < |items| ==> calls[i] == Invocation(ReadProp(h, items[i], Name(name)), items[i], args)
    ensures var first := h.call(ReadProp(h, items[0], Name(name)), items[0], args);
      var c := Call(h, PerElementFn(items, name), args).result;
      && (c == Wrapped(items) <==> first == Undefined)
      && (first != Undefined ==> (c.Values? && |c.vals| == |items| &&
            forall i :: 0 <= i < |items| ==> c.vals[i] == h.call(ReadProp(h, items[i], Name(name)), items[i], args)))
  {
  }

  /** A member that is not a function on some item makes the per-element
      call throw; the items before the first such item have been called, in
      order, and no item from it on. */
  lemma PerElementCallNeedsFunctions(h: Host, items: seq<Value>, name: string, args: seq<Value>, i: nat)
    requires i < |items| && !ReadProp(h, items[i], Name(name)).Func?
    ensures Call(h, PerElementFn(items, name), args).result == Thrown(NotAFunction)
    ensures var calls := Call(h, PerElementFn(items, name), args).calls;
      && |calls| <= i
      && !ReadProp(h, items[|calls|], Name(name)).Func?
      && forall j :: 0 <= j < |calls| ==>
           calls[j] == Invocation(ReadProp(h, items[j], Name(name)), items[j], args) && calls[j].fn.Func?
  {
  }

  /** A registered method is called with the wrapper as receiver; an array
      result is rewrapped and anything else is returned directly. */
  lemma RegisteredMethodRewrapsArrays(h: Host, reg: Registry, items: seq<Value>, name: string, args: seq<Value>)
    requires IsOrdinaryName(h.isNumeric, name)
    requires !Truthy(Lookup(reg.plugins, name))
    requires Lookup(reg.methods, name).Func?
    ensures var r := h.call(Lookup(reg.methods, name), Array(items), args);
      var c := Call(h, Get(h, reg, items, Name(name)), args).result;
      && (r.Array? ==> c == Wrapped(r.items))
      && (!r.Array? ==> c == Raw(r))
  {
    RegisteredMethodShadowsElements(h.isNumeric, reg, name, FactsOf(h, items, Name(name)));
  }

  /** After `use` registers a truthy property under an ordinary name, every
      access of that name resolves to the new definition, whatever the
      collection and whatever was registered before. */
  lemma UseTakesEffect(h: Host, reg: Registry, plugin: Value, items: seq<Value>, name: string)
    requires Use(h, reg, plugin).Ok?
    requires name in Incoming(h, plugin, "properties")
    requires Truthy(Incoming(h, plugin, "properties")[name])
    requires IsOrdinaryName(h.isNumeric, name)
    ensures Get(h, Use(h, reg, plugin).value, items, Name(name)) ==
      PropertyResult(h, items, Incoming(h, plugin, "properties")[name])
  {
    var after := Use(h, reg, plugin).value;
    assert Lookup(after.plugins, name) == Incoming(h, plugin, "properties")[name];
    RegisteredPropertyShadowsElements(h.isNumeric, after, name, FactsOf(h, items, Name(name)));
  }

  /** An unregistered ordinary name gives the empty-collection accessor
      exactly when the collection is empty or its first item is falsy. */
  lemma NoOpExactlyWithoutFirst(h: Host, reg: Registry, items: seq<Value>, name: string)
    requires IsOrdinaryName(h.isNumeric, name)
    requires !Truthy(Lookup(reg.plugins, name)) && !Truthy(Lookup(reg.methods, name))
    ensures Get(h, reg, items, Name(name)) == NoOp <==> |items| == 0 || !Truthy(items[0])
  {
    var facts := FactsOf(h, items, Name(name));
    SelectionIsUnique(EmptyNoOp, h.isNumeric, reg, Name(name), facts);
  }

  /** A function registered as a property is applied to the raw items and its
      result rewrapped. A function result stays callable through the wrapper:
      calling it calls the function itself. */
  lemma FunctionPluginRewraps(h: Host, reg: Registry, items: seq<Value>, name: string, args: seq<Value>)
    requires IsOrdinaryName(h.isNumeric, name)
    requires Lookup(reg.plugins, name).Func?
    ensures var r := h.call(Lookup(reg.plugins, name), Undefined, [Array(items)]);
      var g := Get(h, reg, items, Name(name));
      && (r.Array? ==> g == Wrapped(r.items))
      && (!IsObject(r) ==> g == Thrown(ProxyTargetNotObject))
      && (r.Func? ==> Call(h, g, args).result == Raw(h.call(r, Undefined, args)))
  {
    RegisteredPropertyShadowsElements(h.isNumeric, reg, name, FactsOf(h, items, Name(name)));
  }

  /** An object registered with truthy `properties` (and no `value`) gives an
      accessor whose function entries are applied to the raw items and
      rewrapped, whose other truthy entries come back as they are, and whose
      missing entries read `undefined`. */
  lemma NestedPluginEntries(h: Host, reg: Registry, items: seq<Value>, name: string, key: Key)
    requires IsOrdinaryName(h.isNumeric, name)
    requires var def := Lookup(reg.plugins, name);
      && Truthy(def) && TypeOf(def) == "object"
      && !Truthy(ReadProp(h, def, Name("value"))) && Truthy(ReadProp(h, def, Name("properties")))
    ensures var props := ReadProp(h, Lookup(reg.plugins, name), Name("properties"));
      var entry := ReadProp(h, props, key);
      && Get(h, reg, items, Name(name)) == Namespace(items, props)
      && (entry.Func? ==> GetNamespace(h, items, props, key) == Rewrap(h.call(entry, Undefined, [Array(items)])))
      && (Truthy(entry) && !entry.Func? ==> GetNamespace(h, items, props, key) == Raw(entry))
      && (!Truthy(entry) ==> GetNamespace(h, items, props, key) == Raw(Undefined))
  {
    RegisteredPropertyShadowsElements(h.isNumeric, reg, name, FactsOf(h, items, Name(name)));
  }

  /** `$(sel).style` (or `classList`, `dataset`) gives an accessor over the
      same elements. A sub-method is called on every element's object, in
      order, with that object as receiver and the caller's arguments, and
      keeps the collection; when some element's object lacks it, the calls
      stop there and the call throws. Any other sub-property reads every
      element's value, in order. */
  lemma IntermediateAccess(h: Host, reg: Registry, items: seq<Value>, name: string, key: Key, args: seq<Value>)
    requires IsOrdinaryName(h.isNumeric, name) && name in IntermediateNames
    requires !Truthy(Lookup(reg.plugins, name)) && !Truthy(Lookup(reg.methods, name))
    requires |items| > 0 && Truthy(items[0]) && !ReadProp(h, items[0], Name(name)).Func?
    ensures Get(h, reg, items, Name(name)) == Intermediate(items, name)
    ensures var sub := ReadProp(h, ReadProp(h, items[0], Name(name)), key);
      var g := GetIntermediate(h, items, name, key);
      && (sub.Func? && AllNamespaceCallable(h, items, name, key) ==> Call(h, g, args).result == Wrapped(items))
      && (sub.Func? && !AllNamespaceCallable(h, items, name, key) ==> Call(h, g, args).result == Thrown(NotAFunction))
      && (sub.Func? ==> var calls := Call(h, g, args).calls;
            && (|calls| == |items| <==> AllNamespaceCallable(h, items, name, key))
            && forall i :: 0 <= i < |calls| ==>
                 calls[i] == Invocation(ReadProp(h, ReadProp(h, items[i], Name(name)), key), ReadProp(h, items[i], Name(name)), args))
      && (!sub.Func? ==> (g.Values? && |g.vals| == |items| &&
            forall i :: 0 <= i < |items| ==> g.vals[i] == ReadProp(h, ReadProp(h, items[i], Name(name)), key)))
  {
    FallbackReadsElements(h, reg, items, name);
  }

  /** On an empty collection, any name that falls through to the collection
      yields the no-op accessor, and calling it, or any member read off it,
      gives an empty wrapper. */
  lemma EmptyCollectionChains(h: Host, reg: Registry, name: string, member: Key, args: seq<Value>)
    requires IsOrdinaryName(h.isNumeric, name)
    requires !Truthy(Lookup(reg.plugins, name)) && !Truthy(Lookup(reg.methods, name))
    ensures Get(h, reg, [], Name(name)) == NoOp
    ensures Call(h, Get(h, reg, [], Name(name)), args).result == Wrapped([])
    ensures Call(h, GetNoOp(member), args).result == Wrapped([])
  {
    var facts := FactsOf(h, [], Name(name));
    SelectionIsUnique(EmptyNoOp, h.isNumeric, reg, Name(name), facts);
  }

  /** As written, calling a member directly on an empty collection
      (`$('.missing').remove()`) throws, because the no-op accessor is a
      proxy over a plain object. */
  lemma EmptyCallThrowsAsWritten(h: Host, reg: Registry, name: string, args: seq<Value>)
    requires IsOrdinaryName(h.isNumeric, name)
    requires !Truthy(Lookup(reg.plugins, name)) && !Truthy(Lookup(reg.methods, name))
    ensures CallAsWritten(h, Get(h, reg, [], Name(name)), args).result == Thrown(NotAFunction)
  {
    EmptyCollectionChains(h, reg, name, Name(name), args);
  }

  /** `remove` is neither an `Array.prototype` name nor an event name. */
  lemma RemoveIsNoBuiltinName()
    ensures !IsArrayPrototypeName("remove") && !IsEventName("remove")
  {
    forall k | 0 <= k < ArrayNameCount
      ensures ArrayName(k) != "remove"
    {
      if k < 10 {
      } else if k < 20 {
      } else if k < 30 {
      } else if k < 40 {
      } else {
      }
    }
    UnlistedFrom("remove", 0);
    assert "remove"[..2] != "on";
  }

  /** The concrete case: `$('.missing').remove()` with nothing registered. */
  lemma EmptyRemoveThrowsAsWritten(h: Host)
    requires NumericRespectsNames(h)
    ensures CallAsWritten(h, Get(h, Initial, [], Name("remove")), []).result == Thrown(NotAFunction)
  {
    RemoveIsNoBuiltinName();
    assert !h.isNumeric("remove");
    EmptyCallThrowsAsWritten(h, Initial, "remove", []);
  }
}
